=== FILE: README.md ===
# is-it-on-hfqpdb, modelled in Dafny

The script checks whether the coupon images on the Harbor Freight coupon
pages are already in the HFQPDB community coupon database. It downloads every
database coupon and every site coupon as a `(bytes, hash, name)` triple. It
keeps the database triples that have a hash as the reference list. It then
looks each site coupon with a hash up among the references: an equal hash, or
else a similar image, means the coupon is found. The names of the coupons not
found are collected in site order, and the summary reports
`total - not found` coupons as found.

This project models that decision logic as pure functions and loop methods
over immutable sequences:

- `Coupons` (`coupon.dfy`): `str.rfind` for one character, the image name
  (the part of a URL after its last `/`), the download triple, and
  `dl_and_hash_coupon`. The network read and Python's `hash` are parameters.
- `Rewrite` (`rewrite.dfy`): Python's `str.replace`, `str.count` (which the
  script never calls; it only counts the occurrences `str.replace` rewrites), and the
  thumbnail-to-full-image rewrite applied to scraped database paths.
- `Subsequences` (`subsequence.dfy`): order-preserving sub-lists, used to
  state that filtering and classification keep the input order.
- `Classifier` (`classifier.dfy`): the reference filter, the first-match scan
  over the references, the classification loop, and the run summary. The
  image-similarity test is an abstract predicate `similar(db, site)`.
- `Similarity` (`similarity.dfy`): the threshold test inside
  `coupons_are_similar`, over an abstract correlation surface. It is modelled
  both as written and as intended (see Findings).

Three points about the code that shape the model:

- The similarity test is called in one orientation only: the database image
  is searched for the site image, and the script never swaps the roles itself. The model
  does not assume `similar` is symmetric.
- The exact-match fingerprint is Python's built-in `hash` of the image
  bytes, which is salted per process.
- `not_found` is a list of names in site order. It may hold the same name
  more than once.

## Model

| member | source | states |
|---|---|---|
| Coupons.RFind | is-it-on-hfqpdb.py:28 | The result is -1 exactly when the character is absent. Otherwise it is an index holding the character, and no later index holds it. |
| Coupons.ImageName | is-it-on-hfqpdb.py:28-29 | The name is a suffix of the URL and contains no `/`. It is the whole URL when the URL has no `/`, and otherwise it is directly preceded by a `/`. |
| Coupons.ImageNameUnique | is-it-on-hfqpdb.py:28-29 | Any split of the URL into a prefix that is empty or ends in `/`, followed by a part without `/`, has the image name as that part. So the name is exactly what follows the last `/`. |
| Coupons.DlAndHash | is-it-on-hfqpdb.py:26-37 | The name comes from the URL whether or not the download succeeds. The hash is present exactly when a body arrived, and it is the hash of those bytes. A caught URL error or invalid URL gives `(None, None, name)`. Any other error escapes. |
| Rewrite.ReplaceAll | is-it-on-hfqpdb.py:58 | Each replaced occurrence changes the length by `len(new) - len(old)`, and `str.count` gives the number of occurrences. A string with no occurrence comes back unchanged. |
| Rewrite.CountZeroIffAbsent | is-it-on-hfqpdb.py:58 | The non-overlapping count is zero exactly when the pattern occurs nowhere in the string. |
| Rewrite.ReplaceByItself | is-it-on-hfqpdb.py:58 | Replacing a pattern by itself gives back the original string. |
| Rewrite.ReplaceLeftmost | is-it-on-hfqpdb.py:58 | The leftmost occurrence of a non-empty pattern is replaced by the new text. The text before it is copied unchanged, and the rest of the string is processed the same way after the occurrence. |
| Rewrite.ThumbToFull | is-it-on-hfqpdb.py:58 | A scraped path without the thumbnail prefix is not changed by the rewrite. |
| Rewrite.ThumbnailToFullImage | is-it-on-hfqpdb.py:58 | `/coupons/thumbs/tn_<file>` becomes `https://www.hfqpdb.com/coupons/<file>` whenever the file part does not itself contain the thumbnail prefix. |
| Classifier.KeepHashed | is-it-on-hfqpdb.py:79-82 | The reference list holds only downloads with a hash and is no longer than the download list. |
| Classifier.KeepHashedExactly | is-it-on-hfqpdb.py:79-82 | A download is in the reference list exactly when it has a hash, and the list keeps the original order as a subsequence. |
| Classifier.KeepHashedAppend | is-it-on-hfqpdb.py:79-82 | Filtering a concatenation is the concatenation of the filtered parts. |
| Classifier.CollectReferences | is-it-on-hfqpdb.py:79-82 | The append loop builds exactly the filtered reference list. |
| Classifier.Matches | is-it-on-hfqpdb.py:97 | A reference matches a candidate when the hashes are equal, or else when `similar(reference, candidate)` holds. This is a definition; `Classifier.ScanReferences` states how the loop evaluates it. |
| Classifier.Missing | is-it-on-hfqpdb.py:94-100 | A candidate is missing when its download has a hash and no reference in the list matches it. This is a definition; `Classifier.ScanReferences` and `Classifier.NotFoundMembers` relate it to the loop. |
| Classifier.ScanReferences | is-it-on-hfqpdb.py:95-99 | The scan stops at the first reference that matches by hash or similarity. `save` is true exactly when no reference matches. `similar` is evaluated, in increasing order, on exactly the references up to the stop whose hash differs. |
| Classifier.NotFound | is-it-on-hfqpdb.py:91-102 | The declarative `not_found`: the names of the missing candidates, in candidate order. It is never longer than the candidate list. |
| Classifier.Classify | is-it-on-hfqpdb.py:91-102 | The loop yields the names of the missing candidates in candidate order. That list is empty for no candidates and never longer than the candidate list. |
| Classifier.NotFoundInOrder | is-it-on-hfqpdb.py:92-102 | `not_found` is a subsequence of the candidate names, in candidate order. |
| Classifier.NotFoundAppend | is-it-on-hfqpdb.py:92-102 | Each candidate is classified on its own: the result for a concatenation is the concatenation of the results. |
| Classifier.FailedDownloadsIgnored | is-it-on-hfqpdb.py:93-94 | Candidates without a hash never reach `not_found`. Dropping them first gives the same list. |
| Classifier.NotFoundShorter | is-it-on-hfqpdb.py:93-102 | `not_found` is no longer than the list of successful site downloads, which is no longer than the candidate list. |
| Classifier.NoReferences | is-it-on-hfqpdb.py:91-102 | With an empty reference list, `not_found` is the names of all successfully downloaded candidates. |
| Classifier.NotFoundMembers | is-it-on-hfqpdb.py:95-102 | A name is in `not_found` exactly when some candidate with that name has a hash and no reference has an equal hash or a similar image. |
| Classifier.UpToDate | is-it-on-hfqpdb.py:115-116 | The database is reported up to date exactly when no candidate is missing. |
| Classifier.ReferenceOrderIrrelevant | is-it-on-hfqpdb.py:96-99 | Two reference lists with the same members give the same `not_found`. Scan order and early exit do not affect the outcome. |
| Classifier.MoreReferencesFewerMissing | is-it-on-hfqpdb.py:96-99 | Adding references can only remove entries from `not_found`. The entries that stay keep their order. |
| Classifier.Run | is-it-on-hfqpdb.py:79-112 | The DB count is the number of hashed database downloads. The found count is total minus not found, lies between 0 and the total, and is at least the number of failed site downloads. It equals the total exactly when nothing is missing. |
| Similarity.Where | is-it-on-hfqpdb.py:44 | `np.where` on a 2-D array is a tuple of two equally long index arrays. Their k-th entries are the row and the column of the k-th qualifying cell. |
| Similarity.WhereExactly | is-it-on-hfqpdb.py:44 | The index arrays name every cell that reaches the threshold and no other cell. Each cell appears exactly once, in strictly increasing row-major order. |
| Similarity.ThresholdTestAsWritten | is-it-on-hfqpdb.py:44 | The test as written, the truth value of the tuple `np.where` returns, holds for every surface and every threshold. |
| Similarity.ThresholdTest | is-it-on-hfqpdb.py:44 | The intended test holds exactly when some correlation coefficient reaches the threshold. |
| Similarity.AsWrittenAcceptsDissimilar | is-it-on-hfqpdb.py:44 | The test as written accepts the surface `[[0.2]]`, which the intended test rejects. |
| Similarity.SimilarAsWritten | is-it-on-hfqpdb.py:40-46 | `coupons_are_similar` with the test as written calls every pair of coupons similar. |
| Similarity.SimilarIntended | is-it-on-hfqpdb.py:40-46 | `coupons_are_similar` with the intended test calls two coupons similar exactly when some coefficient of their surface reaches the threshold. |
| Similarity.AsWrittenFindsEverything | is-it-on-hfqpdb.py:40-46 | If line 44's test as written were the similarity predicate, nothing would be reported missing once the reference list is non-empty. |
| Similarity.IntendedMissing | is-it-on-hfqpdb.py:40-46 | With the intended test, a candidate is missing exactly when it has a hash, and against every reference the hashes differ and no coefficient reaches the threshold. |
| Similarity.ThresholdBoundary | is-it-on-hfqpdb.py:18 | A site coupon with a different hash and a one-cell score is found at any threshold up to the score. It is reported missing at any threshold above it, for example 0.95 against 0.9 and against 0.99. |
| Similarity.ExactCopyAndDistinctCoupon | is-it-on-hfqpdb.py:95-102 | Take one database coupon, an exact copy of it, and a different coupon scoring below 0.9. Only the different coupon is reported missing. |

## Findings

| source | as written | input that shows it | evidently intended | confidence | as-written member | corrected member |
|---|---|---|---|---|---|---|
| is-it-on-hfqpdb.py:44 | `if np.where(res >= SIMILAR_THRESHOLD)` takes the truth value of the tuple `np.where` returns. A tuple of two index arrays is never empty, so the test always passes. | a correlation surface whose only coefficient is 0.2 | similar only when some coefficient reaches the threshold | not executed; high, from Python's truth rule for tuples | Similarity.AsWrittenAcceptsDissimilar | Similarity.ThresholdTest |

On its own, the threshold test as written accepts every surface
(`Similarity.ThresholdTestAsWritten`). A classifier using it as its similarity
predicate would report nothing missing once the reference list is non-empty
(`Similarity.AsWrittenFindsEverything`). In the script the test is not
reached this way, because the call on line 97 already fails at line 41 (see
Left out). The classifier is parameterised by the similarity predicate.
`Similarity.SimilarIntended` instantiates it with the corrected test, and
`Similarity.IntendedMissing` states what that means for classification.

## Left out

- Image decoding, grey-scale conversion and `cv2.matchTemplate`: floating-point image processing is outside the model. The correlation surface is an abstract function of the two coupons.
- The arguments passed at line 97: the script hands `coupons_are_similar` the raw `bytes` of the database coupon and only the first byte of the site coupon (`hf_image[0]`). The model gives the predicate both whole coupons.
- The failure at line 41: `cv2.cvtColor` accepts only a numpy array or a scalar, so the `bytes` object passed on line 97 makes it raise. The first site coupon with a hash that differs from the first reference's hash therefore raises there, uncaught, and the run ends before line 112. The classifier assumes that `similar` returns a value and does not model this exception.
- Single precision: `cv2.matchTemplate` returns `float32` coefficients, so `res >= 0.9` compares in single precision. The model compares exact reals.
- The script has no orientation retry of its own. What `cv2.matchTemplate` does with images of different sizes is not modelled.
- Python's built-in `hash`: it is salted per process and opaque, so it is a parameter of `Coupons.DlAndHash`, and the classifier uses the stored hash field.
- Network reads (`urllib.request.urlopen`): the outcome of each read is a parameter (`Coupons.Fetch`).
- The thread pool and futures: `Classifier.Run` takes the returned triples in request order. A download that raised an exception other than the two caught ones would re-raise at `r.result()` and end the run. `Coupons.DlAndHash` reports that as `Raised`, but `Classifier.Run` accepts only returned triples.
- The global `failure_urls` list (lines 21, 36, 85-88): worker threads fill it in completion order and it is only printed.
- The regular-expression scraping of the three web pages (lines 54-74): `Rewrite.ThumbToFull` takes the matched string as input.
- Deleting and creating the save directory, writing image files, console output and the closing `input()` prompt (lines 76-77, 84-88, 101-119): I/O with no decision in it. Only the condition of line 115 is modelled, by `Classifier.UpToDate`.

=== FILE: classifier.dfy ===
/**
  The decision logic of the script's main block: the database ("reference")
  downloads are filtered to those that have a hash, every site ("candidate")
  download that has a hash is looked up among the references, the names of
  those not found are collected in order, and the summary count of found
  coupons is the number of site downloads minus the number not found.

  Whether two images are similar is an abstract predicate `similar(db, site)`,
  applied with the database coupon first, as the script does.
 */
module Classifier {
  import opened Coupons
  import opened Subsequences

  type Similar = (Coupon, Coupon) -> bool

  /* ---------------------------------------------------------------------
     The reference filter
     --------------------------------------------------------------------- */

  /** The downloads that have a hash, in their original order. */
  function KeepHashed(results: seq<Coupon>): (kept: seq<Coupon>)
    ensures |kept| <= |results|
    ensures forall i :: 0 <= i < |kept| ==> kept[i].hash.Some?
    decreases |results|
  {
    if |results| == 0 then []
    else
      var init := results[..|results| - 1];
      var last := results[|results| - 1];
      KeepHashed(init) + (if last.hash.Some? then [last] else [])
  }

  /** The filter keeps exactly the downloads that have a hash, and keeps them
      in their original order. */
  lemma {:induction false} KeepHashedExactly(results: seq<Coupon>)
    ensures forall c :: c in KeepHashed(results) <==> c in results && c.hash.Some?
    ensures IsSubsequence(KeepHashed(results), results)
    decreases |results|
  {
    if |results| > 0 {
      var init := results[..|results| - 1];
      var last := results[|results| - 1];
      var rest := KeepHashed(init);
      KeepHashedExactly(init);
      assert results == init + [last];
      assert forall c :: c in results <==> c in init || c == last;
      if last.hash.Some? {
        SubsequenceExtendBoth(rest, init, last);
        assert forall c :: c in rest + [last] <==> c in rest || c == last;
      } else {
        assert KeepHashed(results) == rest;
        SubsequenceExtend(rest, init, last);
      }
    }
  }

  /** Filtering a concatenation filters each part. Together with the
      one-element cases this determines KeepHashed completely. */
  lemma {:induction false} KeepHashedAppend(a: seq<Coupon>, b: seq<Coupon>)
    ensures KeepHashed(a + b) == KeepHashed(a) + KeepHashed(b)
    decreases |b|
  {
    if |b| == 0 {
      assert a + b == a;
    } else {
      var b' := b[..|b| - 1];
      assert (a + b)[..|a + b| - 1] == a + b';
      KeepHashedAppend(a, b');
    }
  }

  /** Lines 79-82: the loop that builds the reference list. */
  method CollectReferences(results: seq<Coupon>) returns (refs: seq<Coupon>)
    ensures refs == KeepHashed(results)
  {
    refs := [];
    var i := 0;
    while i < |results|
      invariant 0 <= i <= |results|
      invariant refs == KeepHashed(results[..i])
    {
      assert results[..i + 1][..i] == results[..i];
      if results[i].hash.Some? {
        refs := refs + [results[i]];
      }
      i := i + 1;
    }
    assert results[..|results|] == results;
  }

  /* ---------------------------------------------------------------------
     Matching one candidate
     --------------------------------------------------------------------- */

  /** The test of line 97 for one reference: equal hashes, or else similar. */
  predicate Matches(db: Coupon, site: Coupon, similar: Similar)
  {
    site.hash == db.hash || similar(db, site)
  }

  /** No reference matches the candidate. */
  predicate Unmatched(refs: seq<Coupon>, site: Coupon, similar: Similar)
  {
    forall db :: db in refs ==> !Matches(db, site, similar)
  }

  /** A candidate ends up in `not_found`: its download worked and nothing in
      the reference list matches it. */
  predicate Missing(refs: seq<Coupon>, site: Coupon, similar: Similar)
  {
    site.hash.Some? && Unmatched(refs, site, similar)
  }

  /** Lines 95-99: scan the references in order and stop at the first match.
      `save` is the flag the script keeps, `stop` is the index of the first
      matching reference (or the length of the list when none matches), and
      `probed` lists, in increasing order, the references on which `similar`
      was evaluated: those up to and including `stop` whose hash differs from
      the candidate's. An equal hash decides the entry without `similar`. */
  method ScanReferences(refs: seq<Coupon>, site: Coupon, similar: Similar)
    returns (save: bool, stop: nat, probed: seq<nat>)
    ensures stop <= |refs|
    ensures forall j :: 0 <= j < stop ==> !Matches(refs[j], site, similar)
    ensures stop < |refs| ==> Matches(refs[stop], site, similar)
    ensures save <==> stop == |refs|
    ensures save <==> Unmatched(refs, site, similar)
    ensures forall k :: 0 <= k < |probed| ==>
              probed[k] <= stop && probed[k] < |refs| && refs[probed[k]].hash != site.hash
    ensures forall j :: 0 <= j <= stop && j < |refs| && refs[j].hash != site.hash ==> j in probed
    ensures forall k, l :: 0 <= k < l < |probed| ==> probed[k] < probed[l]
  {
    save := true;
    probed := [];
    var i := 0;
    while i < |refs|
      invariant 0 <= i <= |refs|
      invariant forall j :: 0 <= j < i ==> !Matches(refs[j], site, similar)
      invariant forall k :: 0 <= k < |probed| ==> probed[k] < i && refs[probed[k]].hash != site.hash
      invariant forall j :: 0 <= j < i && refs[j].hash != site.hash ==> j in probed
      invariant forall k, l :: 0 <= k < l < |probed| ==> probed[k] < probed[l]
    {
      var hit := site.hash == refs[i].hash;
      if !hit {
        probed := probed + [i];
        hit := similar(refs[i], site);
      }
      if hit {
        save := false;
        stop := i;
        assert !Unmatched(refs, site, similar) by {
          assert refs[i] in refs;
        }
        return;
      }
      i := i + 1;
    }
    stop := |refs|;
    assert Unmatched(refs, site, similar) by {
      forall db | db in refs
        ensures !Matches(db, site, similar)
      {
        var j :| 0 <= j < |refs| && refs[j] == db;
      }
    }
  }

  /* ---------------------------------------------------------------------
     Classifying all candidates
     --------------------------------------------------------------------- */

  /** The names of the candidates, in order. */
  function Names(cands: seq<Coupon>): seq<string>
  {
    seq(|cands|, i requires 0 <= i < |cands| => cands[i].name)
  }

  /** The declarative `not_found` list: the names of the missing candidates,
      in candidate order. */
  function NotFound(refs: seq<Coupon>, cands: seq<Coupon>, similar: Similar): (names: seq<string>)
    ensures |names| <= |cands|
    decreases |cands|
  {
    if |cands| == 0 then []
    else
      var last := cands[|cands| - 1];
      NotFound(refs, cands[..|cands| - 1], similar)
        + (if Missing(refs, last, similar) then [last.name] else [])
  }

  /** Lines 91-102: the loop that builds `not_found`. It computes exactly
      the declarative list, so an empty candidate list gives an empty one. */
  method Classify(refs: seq<Coupon>, cands: seq<Coupon>, similar: Similar)
    returns (notFound: seq<string>)
    ensures notFound == NotFound(refs, cands, similar)
    ensures |notFound| <= |cands|
  {
    notFound := [];
    var i := 0;
    while i < |cands|
      invariant 0 <= i <= |cands|
      invariant notFound == NotFound(refs, cands[..i], similar)
    {
      assert cands[..i + 1][..i] == cands[..i];
      var c := cands[i];
      if c.hash.Some? {
        var save, _, _ := ScanReferences(refs, c, similar);
        if save {
          notFound := notFound + [c.name];
        }
      }
      i := i + 1;
    }
    assert cands[..|cands|] == cands;
    NotFoundInOrder(refs, cands, similar);
    SubsequenceLength(notFound, Names(cands));
  }

  /** `not_found` keeps candidate order: it is a subsequence of the names. */
  lemma {:induction false} NotFoundInOrder(refs: seq<Coupon>, cands: seq<Coupon>, similar: Similar)
    ensures IsSubsequence(NotFound(refs, cands, similar), Names(cands))
    decreases |cands|
  {
    if |cands| == 0 {
    } else {
      var init := cands[..|cands| - 1];
      var last := cands[|cands| - 1];
      NotFoundInOrder(refs, init, similar);
      assert Names(cands) == Names(init) + [last.name];
      if Missing(refs, last, similar) {
        SubsequenceExtendBoth(NotFound(refs, init, similar), Names(init), last.name);
      } else {
        assert NotFound(refs, cands, similar) == NotFound(refs, init, similar);
        SubsequenceExtend(NotFound(refs, init, similar), Names(init), last.name);
      }
    }
  }

  /** Each candidate is classified on its own: classifying a concatenation
      classifies each part. */
  lemma {:induction false} NotFoundAppend(refs: seq<Coupon>, a: seq<Coupon>, b: seq<Coupon>, similar: Similar)
    ensures NotFound(refs, a + b, similar) == NotFound(refs, a, similar) + NotFound(refs, b, similar)
    decreases |b|
  {
    if |b| == 0 {
      assert a + b == a;
    } else {
      var b' := b[..|b| - 1];
      assert (a + b)[..|a + b| - 1] == a + b';
      NotFoundAppend(refs, a, b', similar);
    }
  }

  /** A failed download never reaches `not_found`: classifying all candidates
      gives the same list as classifying only those with a hash. */
  lemma {:induction false} FailedDownloadsIgnored(refs: seq<Coupon>, cands: seq<Coupon>, similar: Similar)
    ensures NotFound(refs, cands, similar) == NotFound(refs, KeepHashed(cands), similar)
    decreases |cands|
  {
    if |cands| > 0 {
      var init := cands[..|cands| - 1];
      var last := cands[|cands| - 1];
      FailedDownloadsIgnored(refs, init, similar);
      if last.hash.Some? {
        assert KeepHashed(cands) == KeepHashed(init) + [last];
        assert (KeepHashed(init) + [last])[..|KeepHashed(init)|] == KeepHashed(init);
      } else {
        assert KeepHashed(cands) == KeepHashed(init);
      }
    }
  }

  /** `not_found` is no longer than the list of successful site downloads. */
  lemma {:induction false} NotFoundShorter(refs: seq<Coupon>, cands: seq<Coupon>, similar: Similar)
    ensures |NotFound(refs, cands, similar)| <= |KeepHashed(cands)| <= |cands|
    decreases |cands|
  {
    if |cands| > 0 {
      NotFoundShorter(refs, cands[..|cands| - 1], similar);
    }
  }

  /** With no references every successful download is not found. */
  lemma {:induction false} NoReferences(cands: seq<Coupon>, similar: Similar)
    ensures NotFound([], cands, similar) == Names(KeepHashed(cands))
    decreases |cands|
  {
    if |cands| > 0 {
      var init := cands[..|cands| - 1];
      NoReferences(init, similar);
      var last := cands[|cands| - 1];
      if last.hash.Some? {
        assert Names(KeepHashed(init) + [last]) == Names(KeepHashed(init)) + [last.name];
      }
    }
  }

  /** A candidate name is in `not_found` exactly when some candidate with
      that name is missing. */
  lemma {:induction false} NotFoundMembers(refs: seq<Coupon>, cands: seq<Coupon>, similar: Similar, name: string)
    ensures name in NotFound(refs, cands, similar) <==>
            exists i :: 0 <= i < |cands| && cands[i].name == name && Missing(refs, cands[i], similar)
    decreases |cands|
  {
    if |cands| > 0 {
      var init := cands[..|cands| - 1];
      NotFoundMembers(refs, init, similar, name);
      if exists i :: 0 <= i < |init| && init[i].name == name && Missing(refs, init[i], similar) {
        var i :| 0 <= i < |init| && init[i].name == name && Missing(refs, init[i], similar);
        assert cands[i] == init[i];
      }
      if exists i :: 0 <= i < |cands| && cands[i].name == name && Missing(refs, cands[i], similar) {
        var i :| 0 <= i < |cands| && cands[i].name == name && Missing(refs, cands[i], similar);
        if i < |init| {
          assert init[i] == cands[i];
        }
      }
    }
  }

  /** The database is up to date (`not_found` is empty) exactly when every
      candidate is either a failed download or matched by some reference. */
  lemma {:induction false} UpToDate(refs: seq<Coupon>, cands: seq<Coupon>, similar: Similar)
    ensures NotFound(refs, cands, similar) == [] <==>
            forall i :: 0 <= i < |cands| ==> !Missing(refs, cands[i], similar)
  {
    var nf := NotFound(refs, cands, similar);
    if nf != [] {
      NotFoundMembers(refs, cands, similar, nf[0]);
    }
    forall i | 0 <= i < |cands| && Missing(refs, cands[i], similar)
      ensures nf != []
    {
      NotFoundMembers(refs, cands, similar, cands[i].name);
    }
  }

  /** The order of the references does not matter: two reference lists with
      the same members classify every candidate list alike. */
  lemma {:induction false} ReferenceOrderIrrelevant(refs1: seq<Coupon>, refs2: seq<Coupon>, cands: seq<Coupon>, similar: Similar)
    requires forall db :: db in refs1 <==> db in refs2
    ensures NotFound(refs1, cands, similar) == NotFound(refs2, cands, similar)
    decreases |cands|
  {
    if |cands| > 0 {
      ReferenceOrderIrrelevant(refs1, refs2, cands[..|cands| - 1], similar);
    }
  }

  /** More references never add to `not_found`: with extra references the
      list only loses entries, keeping the order of the rest. */
  lemma {:induction false} MoreReferencesFewerMissing(refs: seq<Coupon>, extra: seq<Coupon>, cands: seq<Coupon>, similar: Similar)
    ensures IsSubsequence(NotFound(refs + extra, cands, similar), NotFound(refs, cands, similar))
    decreases |cands|
  {
    if |cands| == 0 {
    } else {
      var init := cands[..|cands| - 1];
      var last := cands[|cands| - 1];
      MoreReferencesFewerMissing(refs, extra, init, similar);
      var small := NotFound(refs + extra, init, similar);
      var big := NotFound(refs, init, similar);
      if Missing(refs + extra, last, similar) {
        assert Missing(refs, last, similar);
        SubsequenceExtendBoth(small, big, last.name);
      } else if Missing(refs, last, similar) {
        assert NotFound(refs + extra, cands, similar) == small;
        SubsequenceExtend(small, big, last.name);
      } else {
        assert NotFound(refs + extra, cands, similar) == small;
        assert NotFound(refs, cands, similar) == big;
      }
    }
  }

  /* ---------------------------------------------------------------------
     The run summary
     --------------------------------------------------------------------- */

  /** Lines 79-102 and 112: filter the database downloads, classify the site
      downloads, and count the found coupons as total minus not found. A
      failed site download is therefore counted as found. */
  method Run(dbResults: seq<Coupon>, siteResults: seq<Coupon>, similar: Similar)
    returns (notFound: seq<string>, foundCount: int, totalCount: nat, dbCount: nat)
    ensures dbCount == |KeepHashed(dbResults)|
    ensures dbCount <= |dbResults|
    ensures totalCount == |siteResults|
    ensures notFound == NotFound(KeepHashed(dbResults), siteResults, similar)
    ensures foundCount == totalCount - |notFound|
    ensures 0 <= foundCount
    ensures foundCount <= totalCount
    ensures foundCount >= |siteResults| - |KeepHashed(siteResults)|
    ensures foundCount == totalCount <==>
            forall i :: 0 <= i < |siteResults| ==> !Missing(KeepHashed(dbResults), siteResults[i], similar)
  {
    var refs := CollectReferences(dbResults);
    notFound := Classify(refs, siteResults, similar);
    NotFoundShorter(refs, siteResults, similar);
    UpToDate(refs, siteResults, similar);
    totalCount := |siteResults|;
    foundCount := totalCount - |notFound|;
    dbCount := |refs|;
  }
}

=== FILE: coupon.dfy ===
/**
  The download triple every coupon is carried in, and `dl_and_hash_coupon`,
  which produces it.

  The image name of a coupon URL is everything after the last `/`: the
  script computes `url[url.rfind("/") + 1:]`, and when the URL has no `/`
  at all `rfind` answers -1, so the name is the whole URL.

  A triple is `(image bytes, hash of the bytes, image name)`. A download that
  failed with a URL error or an invalid URL still yields a triple, with the
  bytes and the hash both absent but the name present. The network read and
  Python's built-in `hash` are parameters of the model.
 */
module Coupons {

  /** Python's `str.rfind` for a one-character needle: the index of the last
      occurrence of `c` in `s`, or -1 when `c` does not occur. */
  function RFind(s: string, c: char): (r: int)
    ensures -1 <= r < |s|
    ensures r == -1 <==> c !in s
    ensures 0 <= r ==> s[r] == c
    ensures forall j :: r < j < |s| ==> s[j] != c
  {
    if |s| == 0 then -1
    else if s[|s| - 1] == c then |s| - 1
    else
      assert s == s[..|s| - 1] + [s[|s| - 1]];
      RFind(s[..|s| - 1], c)
  }

  /** The file name the script saves a coupon under. */
  function ImageName(url: string): (name: string)
    ensures |name| <= |url|
    ensures url == url[..|url| - |name|] + name
    ensures '/' !in name
    ensures '/' !in url ==> name == url
    ensures '/' in url ==> url[|url| - |name| - 1] == '/'
  {
    var last := RFind(url, '/');
    SuffixAfter(url, '/', last);
    url[last + 1..]
  }

  /** The part of `s` after the last occurrence of `c`, given that `last` is
      where that occurrence is (or -1), has the properties ImageName states. */
  lemma SuffixAfter(s: string, c: char, last: int)
    requires -1 <= last < |s|
    requires last == -1 <==> c !in s
    requires 0 <= last ==> s[last] == c
    requires forall j :: last < j < |s| ==> s[j] != c
    ensures var name := s[last + 1..];
            && s == s[..|s| - |name|] + name
            && c !in name
            && (c !in s ==> name == s)
            && (c in s ==> s[|s| - |name| - 1] == c)
  {
    var name := s[last + 1..];
    assert s == s[..last + 1] + name;
    assert forall j :: 0 <= j < |name| ==> name[j] == s[last + 1 + j];
  }

  /** The contract of ImageName pins the name down: any split of the URL into
      a prefix that is empty or ends in `/`, followed by a part without `/`,
      has exactly the image name as its second part. */
  lemma ImageNameUnique(url: string, prefix: string, name: string)
    requires url == prefix + name
    requires '/' !in name
    requires prefix == [] || prefix[|prefix| - 1] == '/'
    ensures ImageName(url) == name
  {
    var m := ImageName(url);
    assert |m| >= |name| by {
      if '/' in url {
        var k := |url| - |m| - 1;
        assert url[k] == '/';
        assert forall j :: |prefix| <= j < |url| ==> url[j] == name[j - |prefix|];
      }
    }
    assert |m| <= |name| by {
      if prefix != [] {
        var k := |prefix| - 1;
        assert url[k] == '/';
        assert forall j :: |url| - |m| <= j < |url| ==> url[j] == m[j - (|url| - |m|)];
      }
    }
    assert url[|url| - |m|..] == m;
    assert url[|prefix|..] == name;
  }

  newtype Byte = b: int | 0 <= b < 256

  type Bytes = seq<Byte>

  datatype Option<T> = None | Some(value: T)

  /** One `(bytes, hash, name)` triple as returned by a download future. */
  datatype Coupon = Coupon(image: Option<Bytes>, hash: Option<int>, name: string)

  /** What `urllib.request.urlopen(url).read()` does: deliver a body, or raise
      one of the two errors the script catches, or raise anything else. */
  datatype Fetch = Body(bytes: Bytes) | UrlError | InvalidUrl | OtherError

  /** The outcome of one `dl_and_hash_coupon` call: a returned triple, or an
      exception that escapes the function. */
  datatype Download = Returned(coupon: Coupon) | Raised

  /** A triple is consistent with `hashOf` when bytes and hash are both present
      or both absent, and a present hash is the hash of the present bytes. */
  predicate Consistent(c: Coupon, hashOf: Bytes -> int)
  {
    && (c.image.Some? <==> c.hash.Some?)
    && (c.image.Some? ==> c.hash.value == hashOf(c.image.value))
  }

  /** `dl_and_hash_coupon(url)`: the name is taken from the URL before the
      download is attempted, so it is there whether or not the download works. */
  function DlAndHash(url: string, fetch: Fetch, hashOf: Bytes -> int): (d: Download)
    ensures d.Raised? <==> fetch.OtherError?
    ensures d.Returned? ==> d.coupon.name == ImageName(url)
    ensures d.Returned? ==> Consistent(d.coupon, hashOf)
    ensures d.Returned? ==> (d.coupon.hash.Some? <==> fetch.Body?)
    ensures d.Returned? && fetch.Body? ==> d.coupon.image == Some(fetch.bytes)
  {
    var name := ImageName(url);
    match fetch
    case Body(bytes) => Returned(Coupon(Some(bytes), Some(hashOf(bytes)), name))
    case UrlError => Returned(Coupon(None, None, name))
    case InvalidUrl => Returned(Coupon(None, None, name))
    case OtherError => Raised
  }
}

=== FILE: rewrite.dfy ===
/**
  The thumbnail-to-full-image rewrite applied to every coupon path scraped
  from the database's browse page: Python's `str.replace` of
  `/coupons/thumbs/tn_` by `https://www.hfqpdb.com/coupons/`.

  `str.replace(old, new)` scans left to right and replaces every
  non-overlapping occurrence of `old`; `str.count(old)` counts the same
  occurrences. With an empty `old`, Python inserts `new` before every
  character and once more at the end, and counts `len(s) + 1` occurrences.
 */
module Rewrite {
  const Hfqpdb: string := "https://www.hfqpdb.com"

  /** The path prefix of a thumbnail image on the database site. */
  const ThumbPrefix: string := "/coupons/thumbs/tn_"

  /** What the thumbnail prefix is replaced by: the full-resolution folder. */
  const FullPrefix: string := Hfqpdb + "/coupons/"

  /** Python's `s.count(pat)`: non-overlapping occurrences, leftmost first.
      The script never calls it; it only counts the occurrences ReplaceAll
      rewrites, to state ReplaceAll's length and its unchanged case. */
  function Count(s: string, pat: string): (n: nat)
    ensures |pat| == 0 ==> n == |s| + 1
    ensures |pat| > 0 ==> n * |pat| <= |s|
    decreases |s|
  {
    if |pat| == 0 then |s| + 1
    else if |s| == 0 then 0
    else if pat <= s then
      var c := Count(s[|pat|..], pat);
      MulSucc(c, |pat|);
      1 + c
    else Count(s[1..], pat)
  }

  /** Python's `s.replace(pat, rep)`. Each replaced occurrence changes the
      length by `|rep| - |pat|`, and a string in which `pat` is never found
      comes back unchanged. */
  function ReplaceAll(s: string, pat: string, rep: string): (r: string)
    ensures |r| == |s| + Count(s, pat) * (|rep| - |pat|)
    ensures Count(s, pat) == 0 ==> r == s
    decreases |s|
  {
    if |pat| == 0 then
      if |s| == 0 then rep
      else
        MulSucc(|s| - 1 + 1, |rep|);
        rep + [s[0]] + ReplaceAll(s[1..], pat, rep)
    else if |s| == 0 then []
    else if pat <= s then
      var rest := s[|pat|..];
      MulSucc(Count(rest, pat), |rep| - |pat|);
      rep + ReplaceAll(rest, pat, rep)
    else
      assert s == [s[0]] + s[1..];
      [s[0]] + ReplaceAll(s[1..], pat, rep)
  }

  lemma MulSucc(c: int, d: int)
    ensures (c + 1) * d == d + c * d
  {
  }

  /** `pat` occurs somewhere in `s`. */
  predicate Occurs(pat: string, s: string)
  {
    exists i :: 0 <= i <= |s| && pat <= s[i..]
  }

  /** `str.count` finds an occurrence exactly when there is one. */
  lemma {:induction false} CountZeroIffAbsent(s: string, pat: string)
    ensures Count(s, pat) == 0 <==> !Occurs(pat, s)
    decreases |s|
  {
    if |pat| == 0 {
      assert pat <= s[0..];
    } else if |s| == 0 {
      assert forall i :: 0 <= i <= |s| ==> s[i..] == [];
    } else if pat <= s {
      assert s[0..] == s;
    } else {
      CountZeroIffAbsent(s[1..], pat);
      if Occurs(pat, s) {
        var i :| 0 <= i <= |s| && pat <= s[i..];
        assert i != 0;
        assert s[1..][i - 1..] == s[i..];
      }
      if Occurs(pat, s[1..]) {
        var i :| 0 <= i <= |s[1..]| && pat <= s[1..][i..];
        assert s[1..][i..] == s[i + 1..];
      }
    }
  }

  /** Replacing a pattern by itself changes nothing. */
  lemma {:induction false} ReplaceByItself(s: string, pat: string)
    ensures ReplaceAll(s, pat, pat) == s
    decreases |s|
  {
    if |pat| == 0 {
      if |s| > 0 {
        ReplaceByItself(s[1..], pat);
        assert s == [s[0]] + s[1..];
      }
    } else if |s| == 0 {
    } else if pat <= s {
      ReplaceByItself(s[|pat|..], pat);
      assert s[..|pat|] == pat;
      assert s == s[..|pat|] + s[|pat|..];
    } else {
      ReplaceByItself(s[1..], pat);
      assert s == [s[0]] + s[1..];
    }
  }

  /** The rewrite at line 58 of the script. */
  function ThumbToFull(path: string): (url: string)
    ensures !Occurs(ThumbPrefix, path) ==> url == path
  {
    CountZeroIffAbsent(path, ThumbPrefix);
    ReplaceAll(path, ThumbPrefix, FullPrefix)
  }

  /** The leftmost occurrence of a non-empty pattern is replaced by `rep`,
      the text before it is copied, and the scan resumes after it. Together
      with the unchanged case this fixes the result of `str.replace` for
      every string. */
  lemma {:induction false} ReplaceLeftmost(s: string, pat: string, rep: string, a: string, b: string)
    requires |pat| > 0
    requires s == a + pat + b
    requires forall i :: 0 <= i < |a| ==> !(pat <= s[i..])
    ensures ReplaceAll(s, pat, rep) == a + rep + ReplaceAll(b, pat, rep)
    decreases |a|
  {
    if |a| == 0 {
      assert pat <= s by { assert s[..|pat|] == pat; }
      ReplaceStep(s, pat, rep);
      assert s[|pat|..] == b;
    } else {
      var s', a', tail := s[1..], a[1..], ReplaceAll(b, pat, rep);
      SkipFirst(s, pat, a, b);
      ReplaceStep(s, pat, rep);
      ReplaceLeftmost(s', pat, rep, a', b);
      assert ReplaceAll(s, pat, rep) == [s[0]] + (a' + rep + tail);
      ConsAssoc(s[0], a', rep, tail);
      assert a == [s[0]] + a';
    }
  }

  /** When the leftmost occurrence is not at the start, the scan moves on by
      one character and the occurrence is still the leftmost one. */
  lemma SkipFirst(s: string, pat: string, a: string, b: string)
    requires |a| > 0
    requires s == a + pat + b
    requires forall i :: 0 <= i < |a| ==> !(pat <= s[i..])
    ensures !(pat <= s)
    ensures s[1..] == a[1..] + pat + b
    ensures forall i :: 0 <= i < |a| - 1 ==> !(pat <= s[1..][i..])
  {
    assert s[0..] == s;
    forall i | 0 <= i < |a| - 1
      ensures !(pat <= s[1..][i..])
    {
      assert s[1..][i..] == s[i + 1..];
    }
  }

  lemma ConsAssoc(c: char, x: string, y: string, z: string)
    ensures [c] + (x + y + z) == ([c] + x) + y + z
  {
  }

  /** One step of the left-to-right scan of `str.replace` for a non-empty
      pattern. */
  lemma ReplaceStep(s: string, pat: string, rep: string)
    requires |pat| > 0 && |s| > 0
    ensures pat <= s ==> ReplaceAll(s, pat, rep) == rep + ReplaceAll(s[|pat|..], pat, rep)
    ensures !(pat <= s) ==> ReplaceAll(s, pat, rep) == [s[0]] + ReplaceAll(s[1..], pat, rep)
  {
  }

  /** A thumbnail path `/coupons/thumbs/tn_<file>` is rewritten to the full
      image URL `https://www.hfqpdb.com/coupons/<file>` whenever the file part
      does not itself contain the thumbnail prefix. */
  lemma {:induction false} ThumbnailToFullImage(file: string)
    requires !Occurs(ThumbPrefix, file)
    ensures ThumbToFull(ThumbPrefix + file) == FullPrefix + file
  {
    var s := ThumbPrefix + file;
    assert s == [] + ThumbPrefix + file;
    ReplaceLeftmost(s, ThumbPrefix, FullPrefix, [], file);
    CountZeroIffAbsent(file, ThumbPrefix);
  }
}

=== FILE: similarity.dfy ===
/**
  The threshold test of `coupons_are_similar`, over an abstract correlation
  surface.

  Decoding the two images and running normalised cross-correlation template
  matching are left abstract: `surface(db, site)` stands for the 2-D array of
  correlation coefficients. What is modelled is the test applied to it,
  `np.where(res >= SIMILAR_THRESHOLD)`, whose result is a tuple holding one
  index array per dimension, and the truth value the script takes of it.
 */
module Similarity {
  import opened Coupons
  import opened Classifier

  /** How similar two images have to be to count as the same coupon. */
  const SimilarThreshold: real := 0.9

  /** A correlation surface, row by row. */
  type Surface = seq<seq<real>>

  /** Row-major order on (row, column) pairs. */
  predicate RowMajorBefore(a: (nat, nat), b: (nat, nat))
  {
    a.0 < b.0 || (a.0 == b.0 && a.1 < b.1)
  }

  /** The cells of one row that reach the threshold, as (row, column) pairs,
      by increasing column. */
  function RowHits(row: seq<real>, i: nat, t: real): (hits: seq<(nat, nat)>)
    ensures forall c :: c in hits ==> c.0 == i && c.1 < |row| && row[c.1] >= t
    ensures forall j :: 0 <= j < |row| && row[j] >= t ==> (i, j) in hits
    decreases |row|
  {
    if |row| == 0 then []
    else
      var last := |row| - 1;
      RowHits(row[..last], i, t) + (if row[last] >= t then [(i, last)] else [])
  }

  /** The cells of a row are listed by strictly increasing column. */
  lemma {:induction false} RowHitsIncreasing(row: seq<real>, i: nat, t: real)
    ensures forall k, l :: 0 <= k < l < |RowHits(row, i, t)| ==> RowHits(row, i, t)[k].1 < RowHits(row, i, t)[l].1
    decreases |row|
  {
    if |row| > 0 {
      var last := |row| - 1;
      var before := RowHits(row[..last], i, t);
      var hits := RowHits(row, i, t);
      RowHitsIncreasing(row[..last], i, t);
      forall k, l | 0 <= k < l < |hits|
        ensures hits[k].1 < hits[l].1
      {
        assert hits[k] == before[k] && before[k] in before;
        if l < |before| {
          assert hits[l] == before[l];
        } else {
          assert hits[l] == (i, last);
        }
      }
    }
  }

  /** The cells of the surface that reach the threshold, in row-major order. */
  function Hits(res: Surface, t: real): (hits: seq<(nat, nat)>)
    ensures forall c :: c in hits ==> c.0 < |res| && c.1 < |res[c.0]| && res[c.0][c.1] >= t
    ensures forall i, j :: 0 <= i < |res| && 0 <= j < |res[i]| && res[i][j] >= t ==> (i, j) in hits
    decreases |res|
  {
    if |res| == 0 then []
    else
      var last := |res| - 1;
      var above := Hits(res[..last], t);
      var here := RowHits(res[last], last, t);
      assert forall i :: 0 <= i < last ==> res[..last][i] == res[i];
      assert forall c :: c in above + here <==> c in above || c in here;
      above + here
  }

  /** The cells of the surface are listed in strictly increasing row-major
      order, so no cell is listed twice. */
  lemma {:induction false} HitsInRowMajorOrder(res: Surface, t: real)
    ensures forall k, l :: 0 <= k < l < |Hits(res, t)| ==> RowMajorBefore(Hits(res, t)[k], Hits(res, t)[l])
    decreases |res|
  {
    if |res| > 0 {
      var last := |res| - 1;
      var above := Hits(res[..last], t);
      var here := RowHits(res[last], last, t);
      HitsInRowMajorOrder(res[..last], t);
      RowHitsIncreasing(res[last], last, t);
      var hits := Hits(res, t);
      assert hits == above + here;
      assert forall c :: c in above ==> c.0 < last;
      assert forall c :: c in here ==> c.0 == last;
      forall k, l | 0 <= k < l < |hits|
        ensures RowMajorBefore(hits[k], hits[l])
      {
        if l < |above| {
          assert hits[k] == above[k] && hits[l] == above[l];
        } else if k < |above| {
          assert hits[k] == above[k] && above[k] in above;
          assert hits[l] == here[l - |above|] && here[l - |above|] in here;
        } else {
          assert hits[k] == here[k - |above|] && hits[l] == here[l - |above|];
          assert here[k - |above|] in here;
        }
      }
    }
  }

  /** `np.where(res >= t)` on a 2-D array: a tuple of two index arrays whose
      k-th entries are the row and the column of the k-th qualifying cell. */
  function Where(res: Surface, t: real): (w: seq<seq<nat>>)
    ensures |w| == 2
    ensures |w[0]| == |w[1]| == |Hits(res, t)|
    ensures forall k :: 0 <= k < |w[0]| ==> (w[0][k], w[1][k]) == Hits(res, t)[k]
  {
    var hits := Hits(res, t);
    [seq(|hits|, k requires 0 <= k < |hits| => hits[k].0),
     seq(|hits|, k requires 0 <= k < |hits| => hits[k].1)]
  }

  /** The index arrays list every cell that reaches the threshold and no
      other, each exactly once, in row-major order. */
  lemma WhereExactly(res: Surface, t: real)
    ensures var w := Where(res, t);
            forall k :: 0 <= k < |w[0]| ==>
              w[0][k] < |res| && w[1][k] < |res[w[0][k]]| && res[w[0][k]][w[1][k]] >= t
    ensures var w := Where(res, t);
            forall i, j :: 0 <= i < |res| && 0 <= j < |res[i]| && res[i][j] >= t ==>
              exists k :: 0 <= k < |w[0]| && w[0][k] == i && w[1][k] == j
    ensures var w := Where(res, t);
            forall k, l :: 0 <= k < l < |w[0]| ==> RowMajorBefore((w[0][k], w[1][k]), (w[0][l], w[1][l]))
  {
    var w := Where(res, t);
    var hits := Hits(res, t);
    HitsInRowMajorOrder(res, t);
    forall k, l | 0 <= k < l < |w[0]|
      ensures RowMajorBefore((w[0][k], w[1][k]), (w[0][l], w[1][l]))
    {
      assert (w[0][k], w[1][k]) == hits[k] && (w[0][l], w[1][l]) == hits[l];
    }
    forall k | 0 <= k < |w[0]|
      ensures w[0][k] < |res| && w[1][k] < |res[w[0][k]]| && res[w[0][k]][w[1][k]] >= t
    {
      assert hits[k] in hits;
    }
    forall i, j | 0 <= i < |res| && 0 <= j < |res[i]| && res[i][j] >= t
      ensures exists k :: 0 <= k < |w[0]| && w[0][k] == i && w[1][k] == j
    {
      assert (i, j) in hits;
      var k :| 0 <= k < |hits| && hits[k] == (i, j);
      assert (w[0][k], w[1][k]) == hits[k];
    }
  }

  /** Line 44 as written: the truth value of the tuple `np.where` returns,
      which Python takes to be "the tuple is not empty". It holds for every
      surface and every threshold. */
  function ThresholdTestAsWritten(res: Surface, t: real): (accepted: bool)
    ensures accepted
  {
    |Where(res, t)| > 0
  }

  /** The evidently intended test: the index arrays are not empty. It holds
      exactly when some coefficient reaches the threshold. */
  function ThresholdTest(res: Surface, t: real): (accepted: bool)
    ensures accepted <==> exists i, j :: 0 <= i < |res| && 0 <= j < |res[i]| && res[i][j] >= t
  {
    var hits := Hits(res, t);
    assert |hits| > 0 ==> hits[0] in hits;
    |Where(res, t)[0]| > 0
  }

  /** As written, the test accepts a surface none of whose coefficients
      reaches the threshold: the one-cell surface with coefficient 0.2. */
  lemma AsWrittenAcceptsDissimilar()
    ensures ThresholdTestAsWritten([[0.2]], SimilarThreshold)
    ensures !ThresholdTest([[0.2]], SimilarThreshold)
  {
    assert [[0.2]][0][0] == 0.2;
  }

  /** `coupons_are_similar` with the test of line 44 as written, given the
      correlation surface: it calls every pair of coupons similar. */
  function SimilarAsWritten(surface: (Coupon, Coupon) -> Surface): (similar: Similar)
    ensures forall db, site :: similar(db, site)
  {
    var similar := (db: Coupon, site: Coupon) => ThresholdTestAsWritten(surface(db, site), SimilarThreshold);
    assert forall db, site :: similar(db, site) == ThresholdTestAsWritten(surface(db, site), SimilarThreshold);
    similar
  }

  /** `coupons_are_similar` with the intended threshold test: two coupons are
      similar exactly when some coefficient of their surface reaches `t`. */
  function SimilarIntended(surface: (Coupon, Coupon) -> Surface, t: real): (similar: Similar)
    ensures forall db, site :: similar(db, site) <==>
              exists i, j :: 0 <= i < |surface(db, site)| && 0 <= j < |surface(db, site)[i]| &&
                             surface(db, site)[i][j] >= t
  {
    var similar := (db: Coupon, site: Coupon) => ThresholdTest(surface(db, site), t);
    assert forall db, site :: similar(db, site) == ThresholdTest(surface(db, site), t);
    similar
  }

  /** A classifier whose similarity predicate is the threshold test of line
      44 as written reports nothing missing once the reference list is not
      empty, whatever the surfaces look like. This is a statement about that
      test on its own: line 97 passes the raw `bytes` of the database coupon,
      which `cv2.cvtColor` on line 41 does not accept, so in the script the
      call fails before the test is reached. */
  lemma AsWrittenFindsEverything(refs: seq<Coupon>, cands: seq<Coupon>, surface: (Coupon, Coupon) -> Surface)
    requires |refs| > 0
    ensures NotFound(refs, cands, SimilarAsWritten(surface)) == []
  {
    var similar := SimilarAsWritten(surface);
    forall i | 0 <= i < |cands|
      ensures !Missing(refs, cands[i], similar)
    {
      assert refs[0] in refs;
      assert Matches(refs[0], cands[i], similar);
    }
    UpToDate(refs, cands, similar);
  }

  /** With the intended test, a site coupon is missing exactly when its
      download worked and, against every database coupon, the hashes differ
      and no coefficient reaches the threshold. */
  lemma IntendedMissing(refs: seq<Coupon>, site: Coupon, surface: (Coupon, Coupon) -> Surface, t: real)
    ensures Missing(refs, site, SimilarIntended(surface, t)) <==>
            && site.hash.Some?
            && forall db :: db in refs ==>
                 && site.hash != db.hash
                 && forall i, j :: 0 <= i < |surface(db, site)| && 0 <= j < |surface(db, site)[i]| ==>
                      surface(db, site)[i][j] < t
  {
    var similar := SimilarIntended(surface, t);
    forall db | db in refs
      ensures similar(db, site) <==> !forall i, j :: 0 <= i < |surface(db, site)| && 0 <= j < |surface(db, site)[i]| ==>
                                      surface(db, site)[i][j] < t
    {
    }
  }

  /** On a one-cell surface the intended test compares that cell with the
      threshold. */
  lemma SingleCellTest(score: real, t: real)
    ensures ThresholdTest([[score]], t) <==> score >= t
  {
    assert [[score]][0][0] == score;
  }

  /** Against a single reference, a candidate is missing exactly when it has
      a hash and does not match that reference. */
  lemma SingleReference(db: Coupon, site: Coupon, similar: Similar)
    ensures Missing([db], site, similar) <==> site.hash.Some? && !Matches(db, site, similar)
  {
    assert db in [db];
    assert forall d :: d in [db] ==> d == db;
  }

  /** A single candidate is reported exactly when it is missing. */
  lemma SingleCandidate(refs: seq<Coupon>, site: Coupon, similar: Similar)
    ensures NotFound(refs, [site], similar) == if Missing(refs, site, similar) then [site.name] else []
  {
    assert [site][..0] == [];
  }

  /** One database coupon and one site coupon with a different hash that
      scores `score` against it: the site coupon is found at any threshold up
      to the score and reported missing at any threshold above it. With the
      scores of a re-encoded copy (0.95), that is found at 0.9 and missing
      at 0.99. */
  lemma ThresholdBoundary(db: Coupon, site: Coupon, surface: (Coupon, Coupon) -> Surface,
                          score: real, low: real, high: real)
    requires site.hash.Some? && site.hash != db.hash
    requires surface(db, site) == [[score]]
    requires low <= score < high
    ensures NotFound([db], [site], SimilarIntended(surface, low)) == []
    ensures NotFound([db], [site], SimilarIntended(surface, high)) == [site.name]
  {
    var lax := SimilarIntended(surface, low);
    var strict := SimilarIntended(surface, high);
    SingleCellTest(score, low);
    SingleCellTest(score, high);
    assert lax(db, site);
    assert !strict(db, site);
    SingleReference(db, site, lax);
    SingleReference(db, site, strict);
    SingleCandidate([db], site, lax);
    SingleCandidate([db], site, strict);
  }

  /** One database coupon X; the site offers an exact copy of X and a coupon
      Y whose only coefficient against X is below the threshold. Only Y is
      reported missing. */
  lemma ExactCopyAndDistinctCoupon(x: Coupon, copy: Coupon, y: Coupon, surface: (Coupon, Coupon) -> Surface, score: real)
    requires x.hash.Some? && copy.hash == x.hash
    requires y.hash.Some? && y.hash != x.hash
    requires surface(x, y) == [[score]]
    requires score < SimilarThreshold
    ensures NotFound([x], [copy, y], SimilarIntended(surface, SimilarThreshold)) == [y.name]
  {
    var similar := SimilarIntended(surface, SimilarThreshold);
    SingleCellTest(score, SimilarThreshold);
    assert !similar(x, y);
    SingleReference(x, y, similar);
    SingleReference(x, copy, similar);
    SingleCandidate([x], copy, similar);
    SingleCandidate([x], y, similar);
    assert [copy, y] == [copy] + [y];
    NotFoundAppend([x], [copy], [y], similar);
  }
}

=== FILE: subsequence.dfy ===
/**
  Order-preserving sub-lists: `xs` is a subsequence of `ys` when `xs` can be
  obtained from `ys` by deleting elements without reordering the rest.
 */
module Subsequences {

  /** Defined from the end: either the last element of `ys` is dropped, or it
      is kept as the last element of `xs`. */
  predicate IsSubsequence<T(==)>(xs: seq<T>, ys: seq<T>)
    decreases |ys|
  {
    if |ys| == 0 then |xs| == 0
    else
      || IsSubsequence(xs, ys[..|ys| - 1])
      || (&& |xs| > 0
          && xs[|xs| - 1] == ys[|ys| - 1]
          && IsSubsequence(xs[..|xs| - 1], ys[..|ys| - 1]))
  }

  /** Deleting elements never makes a list longer. */
  lemma {:induction false} SubsequenceLength<T>(xs: seq<T>, ys: seq<T>)
    requires IsSubsequence(xs, ys)
    ensures |xs| <= |ys|
    decreases |ys|
  {
    if |ys| > 0 {
      if IsSubsequence(xs, ys[..|ys| - 1]) {
        SubsequenceLength(xs, ys[..|ys| - 1]);
      } else {
        SubsequenceLength(xs[..|xs| - 1], ys[..|ys| - 1]);
      }
    }
  }

  /** Appending an element to the longer list keeps the relation. */
  lemma SubsequenceExtend<T>(xs: seq<T>, ys: seq<T>, y: T)
    requires IsSubsequence(xs, ys)
    ensures IsSubsequence(xs, ys + [y])
  {
    assert (ys + [y])[..|ys|] == ys;
  }

  /** Appending the same element to both lists keeps the relation. */
  lemma SubsequenceExtendBoth<T>(xs: seq<T>, ys: seq<T>, y: T)
    requires IsSubsequence(xs, ys)
    ensures IsSubsequence(xs + [y], ys + [y])
  {
    assert (ys + [y])[..|ys|] == ys;
    assert (xs + [y])[..|xs|] == xs;
  }
}
